=== FILE: README.md ===
# simsimsim visualiser: snapshot exchange and session control

This project models the part of the simsimsim visualiser (`src/Visualiser.c`) that sits between the simulation engine and the drawing code.

The **snapshot exchange** works as follows:
- The engine publishes a whole generation of organisms or a single step into a *write* buffer.
- When a change is pending, the render loop copies the write buffer into a *read* buffer, which the drawing code reads.
- Each publish and each refresh of the read side sets or clears four flags (step changed, generation changed, writeable populated, readable populated).
- Each step publish records the survival rate and stores it in a per-step series and a per-generation series.

The **session control** consists of:
- the input handler (Escape, window close, the Space pause toggle, the `d` speed toggle);
- the run-mode label (Disconnected, Paused, Running, Running Fast);
- the signals the visualiser sends to the engine: `Ready`, `Pause`, `Continue`, `FramePause`, `FrameContinue` and `Quit`.

A session runs as follows:
- At startup the buffers and series are allocated, `Ready` is sent and then `Pause`, because the visualiser starts paused.
- The render loop runs until the session is interrupted.
- Shutdown sends `Continue` if paused, then `Quit`, and releases the records of each buffer that holds some; the code frees a buffer only in that case (see Findings).

The modules:
- `Organisms` holds the organism records as the visualiser sees them. A record has an identity part and a live part. The module also defines the alive count.
- `Survival` holds the survival rate and the series ratio, as exact reals.
- `Control` holds the event handler as a pure state-transition function `ControlStep`/`HandleAll` over a `ControlState`, with the close test as written; `ControlStepCorrected` is the handler with the close test the code evidently intends. It also holds the pause protocol those transitions keep:
  - the `Pause`/`Continue` signals alternate;
  - the last of those signals says whether the visualiser is paused;
  - once `Quit` is sent, it is the last signal and is sent only once.
- `Visualiser` has a class whose fields are the module-level state of the source:
  - both buffers and both series as arrays;
  - the exchange flags, the figures and the control state as three datatype-valued fields.

  Its methods are the publish, refresh, event and shutdown operations. Each one is proved against the pure functions and against the class invariant `Valid()`. `RunUserInterface` drives a whole session, as the code is written, over a schedule that interleaves render-loop frames with engine calls; `Shutdown` is the corrected session end.

  A session's state is a `SessionState`: the control state, the exchange flags, the figures, and the contents of the two buffers and the two series. `SessionStart` is that state right after startup. `AfterAction` gives what one frame or engine call does to it, and `AfterActions` folds that over the first `n` actions of a schedule. Its control part `ControlAfter` depends on the control state alone. `Perform`, `RenderLoop` and `RunUserInterface` are proved against this fold, and the lemmas about the fold say which actions interrupt the session, which populate the write side, that signals are only appended and keep the pause protocol, and that the read buffer equals the write buffer whenever no step change is pending. As written, Escape is the only user input that ends a session (the engine can end it too), because the window-close test never fires (Findings).

## Model

| member | source | states |
|---|---|---|
| Organisms.AliveCount | src/Visualiser.c:464-469 | the number of survivors counted never exceeds the population |
| Organisms.AliveCountAll | src/Visualiser.c:462-471 | the count equals the population exactly when every organism is alive |
| Organisms.AliveCountNone | src/Visualiser.c:462-471 | the count is zero exactly when no organism is alive |
| Organisms.AliveCountLiveOnly | src/Visualiser.c:520-529 | the survival count depends only on the per-step (mutable) part of each record, so counting the write buffer after a step copy gives the count of the engine's population |
| Organisms.AliveCountSnoc | src/Visualiser.c:465-469 | counting one more organism adds one exactly when that organism is alive |
| Survival.Ratio | src/Visualiser.c:531 | a series entry lies in [0, 1]; it is 1 exactly when all survive and 0 exactly when none do |
| Survival.Percent | src/Visualiser.c:470 | the survival rate lies in [0, 100], equals 100 times the series ratio, and is 100 exactly when all survive |
| Survival.PercentFormula | src/Visualiser.c:470 | the source's formula `100 * survivors / population` is the survival rate `Percent` of the model |
| Survival.CalculateSurvivalRate | src/Visualiser.c:462-471 | the loop returns the percentage of alive records among the first `population` entries, and that percentage lies in [0, 100] |
| Control.ModeOf | src/Visualiser.c:227-235 | the shell shows Disconnected exactly when disconnected, Paused exactly when connected and paused, Running exactly when connected, running and pacing on, and Running Fast exactly when connected, running and pacing off |
| Control.ControlStep | src/Visualiser.c:289-321 | one event, handled as written: the session is interrupted afterwards exactly when it was before or the event is Escape (or a close request as the code tests it); only Space changes `paused` and only `d` changes `withDelay`; only Space sends a signal, at most one, appended to those already sent; no event changes `disconnected` or sends `Quit`; other keys and other events change nothing |
| Control.HandleAll | src/Visualiser.c:285-323 | the events polled in one iteration, handled in order: signals are only appended, at most one per event, never `Quit`; `disconnected` is kept and `interrupted` never cleared |
| Control.EscapeInterrupts | src/Visualiser.c:299-301 | Escape sets `interrupted`, whatever the state, and changes nothing else |
| Control.HandleAllInterrupted | src/Visualiser.c:285-323 | a batch of polled events leaves the session interrupted exactly when it was already or one of its events interrupts; any batch holding an Escape press interrupts it |
| Control.OnlyEscapeInterrupts | src/Visualiser.c:289-301 | as written, among the events SDL delivers, a batch interrupts the session exactly when it was interrupted already or the batch holds an Escape press |
| Control.CloseNeverSeenAsWritten | src/Visualiser.c:290-295 | as written, no window event SDL delivers passes the close test, the close request included, and the handler leaves the state as it was |
| Control.ControlStepCorrected | src/Visualiser.c:289-321 | the handler with the intended close test agrees with the handler as written on every event SDL delivers except a window close request |
| Control.WindowCloseInterrupts | src/Visualiser.c:290-295 | with the intended test, a close request sets `interrupted` and changes nothing else |
| Control.SpaceToggle | src/Visualiser.c:302-311 | Space does nothing while disconnected; otherwise it flips `paused` and sends exactly one signal: `Continue` when paused, `Pause` when running |
| Control.ModeTransitions | src/Visualiser.c:227-235 | the shell's mode label under the two toggles: Paused and the running modes swap on Space; Running and Running Fast swap on `d`; `d` leaves the state alone when paused or disconnected; Disconnected absorbs every key |
| Control.SpeedToggle | src/Visualiser.c:312-318 | `d` flips `withDelay` exactly when neither disconnected nor paused, and changes nothing else |
| Control.SpeedToggleIsSilent | src/Visualiser.c:312-318 | input without Space never sends a signal and never changes `paused` |
| Control.TwoTogglesAlternate | src/Visualiser.c:302-311 | two Space presses restore `paused` and send `Continue, Pause` or `Pause, Continue` |
| Control.PauseSignals | src/Visualiser.c:304-308 | the pause/continue subsequence of the signals sent consists only of those two signals and is no longer than the whole |
| Control.PauseSignalsAppend | src/Visualiser.c:304-308 | the pause/continue subsequence of concatenated signal sequences is the concatenation of their subsequences |
| Control.AlternatingSnoc | src/Visualiser.c:302-311 | appending a signal that differs from the last keeps a signal sequence alternating |
| Control.AlternatingAt | src/Visualiser.c:302-311 | in an alternating sequence every adjacent pair differs |
| Control.ControlStepKeepsProtocol | src/Visualiser.c:289-321 | every input event keeps the pause protocol: the pause/continue signals alternate and the last one says whether paused |
| Control.HandleAllKeepsProtocol | src/Visualiser.c:285-323 | a whole batch of polled events keeps the pause protocol |
| Control.OtherSignalsKeepProtocol | src/Visualiser.c:569-571 | sending frame signals (`FramePause`, `FrameContinue`) leaves the pause/continue subsequence, and so the protocol, as it was |
| Control.PacingSignals | src/Visualiser.c:569-571 | a loop iteration sends at most one signal, `FrameContinue`: always when Running, never when Paused or Running Fast; while disconnected, exactly when not paused and pacing is on |
| Visualiser.PublishSignals | src/Visualiser.c:504-505 | after releasing the lock a publish (of a generation here, of a step at lines 536-537) sends `FramePause` exactly when pacing is on, and nothing otherwise |
| Visualiser.PublishPausesWhatFramesRelease | src/Visualiser.c:504-505 | a publish sends at most `FramePause`, and sends it whenever a loop iteration would send `FrameContinue`; running fast, neither is sent |
| Control.ShutdownSignals | src/Visualiser.c:574-577 | shutdown sends `Quit` last and only once, preceded by `Continue` exactly when paused, and nothing else: two signals when paused, one otherwise |
| Control.ShutdownKeepsAlternation | src/Visualiser.c:574-577 | the shutdown signals keep the pause/continue signals alternating |
| Control.ShutdownEnds | src/Visualiser.c:574-577 | after the shutdown signals of a running, interrupted session, `Quit` has been sent once and last, the pause signals alternate, and the signals sent before are kept |
| Visualiser.NewBuffer | src/Visualiser.c:544-545 | a fresh buffer of `population` records, every one the blank record `calloc` gives |
| Visualiser.NewSeries | src/Visualiser.c:123-124 | a fresh series of the given length, every entry zero as `calloc` gives |
| Visualiser.Visualiser.constructor | src/Visualiser.c:542-560 | session start, the state `SessionStart`: both buffers allocated and empty, every flag cleared, survival rate 100 with previous rate -1, zeroed series, paused with pacing on, and the signals `Ready, Pause`; the exchange and session invariant holds |
| Visualiser.Visualiser.PublishGeneration | src/Visualiser.c:473-506 | a no-op once interrupted; otherwise the write buffer holds exactly the published organisms, both change flags and the populated flag are set, the generation is recorded and the step reset, the previous rate takes the current one from generation 1 on, the rate is reset to 100, and `FramePause` follows with pacing on; the invariant is kept |
| Visualiser.Visualiser.StoreSurvival | src/Visualiser.c:531 | the chained store writes the ratio at `s` in the per-step series and at the current generation in the per-generation series, and changes no other entry |
| Visualiser.LiveCopied | src/Visualiser.c:521-524 | the write side after a step copy: every record keeps its identity and takes the live state of the matching engine record |
| Visualiser.Visualiser.RecordStep | src/Visualiser.c:520-532 | the write side of a step publish: every record keeps its identity and takes the engine's live state, the rate returned is the percentage of the engine's population alive, and exactly the entries at `s` and at the current generation of the two series become the ratio alive |
| Visualiser.Visualiser.PublishStep | src/Visualiser.c:513-538 | a no-op once interrupted; before any generation only the `FramePause` pacing signal; otherwise every record keeps its identity and takes the engine's live state, only the step flag is set, the step is recorded, the rate becomes the percentage alive, and exactly the entries at `s` and at the current generation of the two series become the ratio alive; the invariant is kept |
| Visualiser.Visualiser.Refresh | src/Visualiser.c:329-345 | refreshes exactly when not interrupted and a change is pending; then the read buffer equals the write buffer, both change flags are cleared together and the read side is marked populated; otherwise nothing changes |
| Visualiser.Visualiser.HandleEvent | src/Visualiser.c:289-321 | the imperative handler, close test as written, leaves the control state `ControlStep` of the old one, and the invariant is kept |
| Visualiser.Visualiser.HandleEvents | src/Visualiser.c:285-323 | the polling loop's new control state is `HandleAll` of the old one over the events in order |
| Visualiser.Visualiser.SendDisconnected | src/Visualiser.c:200-203 | sets `disconnected` and changes nothing else in the control state |
| Visualiser.Visualiser.SendQuit | src/Visualiser.c:508-511 | sets `interrupted` and changes nothing else in the control state |
| Visualiser.Visualiser.SetObstacles | src/Visualiser.c:449-460 | the obstacle list passed to drawing becomes the given rectangles, the empty list included |
| Visualiser.Visualiser.RunFrame | src/Visualiser.c:562-571 | one loop iteration: the events are handled in order, the read side is refreshed exactly when not interrupted by them and a change is pending, and `FrameContinue` is sent exactly when not paused and pacing is on |
| Visualiser.ActionControlInterrupted | src/Visualiser.c:562-572 | one frame or engine call leaves the session interrupted exactly when it was already or the action interrupts: an engine quit, or a frame whose events hold an interrupting one |
| Visualiser.ActionControlAppends | src/Visualiser.c:562-572 | one frame or engine call only appends signals and never sends `Quit` |
| Visualiser.ActionControlKeepsProtocol | src/Visualiser.c:562-572 | one frame or engine call keeps the pause protocol |
| Visualiser.ControlAfterInterrupted | src/Visualiser.c:562-572 | the first `n` actions of a schedule leave the session interrupted exactly when it was already or one of them interrupts |
| Visualiser.ControlAfterAppends | src/Visualiser.c:562-572 | the first `n` actions only append signals and never send `Quit` |
| Visualiser.ControlAfterKeepsProtocol | src/Visualiser.c:562-572 | the first `n` actions keep the pause protocol |
| Visualiser.RunStopsAtInterruption | src/Visualiser.c:562-572 | for a loop that stops once interrupted: if the actions run leave the session interrupted, the last of them interrupted it, and otherwise none did |
| Visualiser.ActionContentsSynced | src/Visualiser.c:329-345 | one frame or engine call keeps the read buffer equal to the write buffer whenever no step change is pending afterwards |
| Visualiser.ContentsAfterSynced | src/Visualiser.c:329-345 | after the first `n` actions, the read buffer equals the write buffer whenever no step change is pending |
| Visualiser.FlagsAfterPopulated | src/Visualiser.c:473-506 | after the first `n` actions the write side is populated exactly when it was before or one of them published a generation |
| Visualiser.Visualiser.Perform | src/Visualiser.c:562-572 | one frame or engine call of a running session: the new session state, the buffers and series included, is `AfterAction` of the old one; the session is interrupted exactly when the action interrupts it; a frame leaves the write side and the series alone and makes the read side a copy of the write side exactly when it refreshes; a generation publish fills the write buffer; a step publish, once populated, copies the live parts and stores the ratio in both series; every other action leaves all four arrays alone |
| Visualiser.Visualiser.PerformNext | src/Visualiser.c:562-572 | one more action of the schedule: the session state after it is `AfterActions` over one more action, and the invariant is kept |
| Visualiser.Visualiser.RenderLoop | src/Visualiser.c:562-572 | runs the schedule in order while not interrupted: the session state afterwards, with the contents of both buffers and both series, is `AfterActions` of the old one over the actions run, and the obstacles are kept; it ran every action unless interrupted, and none before the last one run interrupted the session |
| Visualiser.Visualiser.SendShutdownSignals | src/Visualiser.c:574-577 | sends `Continue` if paused and then `Quit`; afterwards the session has ended: `Quit` was sent once and last, and the pause signals alternate |
| Visualiser.Visualiser.Shutdown | src/Visualiser.c:574-595 | corrected shutdown: the session has ended, both buffers are emptied and freed, a buffer that held nothing is not touched, and the figures and obstacles are kept |
| Visualiser.Visualiser.ShutdownAsWritten | src/Visualiser.c:574-595 | shutdown as written: the session has ended, both buffers hold no records and both populated flags are cleared, but a buffer is freed only when it was populated; the figures and obstacles are kept |
| Visualiser.Visualiser.ReleaseBuffers | src/Visualiser.c:579-595 | corrected release once `Quit` is sent: both buffers blank and freed, both populated flags cleared, an unpopulated buffer not touched |
| Visualiser.Visualiser.ReleaseBuffersAsWritten | src/Visualiser.c:579-595 | release as written: both buffers blank and both populated flags cleared, each buffer freed exactly when it was populated |
| Visualiser.Visualiser.Finish | src/Visualiser.c:574-595 | once the loop returns: an interrupted session shuts down as written, any other is left as it was; the figures, series and obstacles never change |
| Visualiser.RunUserInterface | src/Visualiser.c:540-600 | a whole session as written: the session ends exactly when some action of the schedule interrupts it, so an engine quit or a frame holding an Escape press always ends it; the figures and both series are `AfterActions` from the start state over the actions run, and so is the whole session state, buffers included, when not ended; once ended the control state and flags are those of `AfterActions` followed by the shutdown signals and the as-written release; no obstacles are set; a session that ends does so at the first interrupting action, with `Quit` sent once and last, the pause signals alternating, both buffers empty, the write buffer still allocated exactly when no generation was published, and then the read buffer too; a session not interrupted ran every action and keeps the pause protocol |
| Visualiser.SessionOutcome | src/Visualiser.c:562-572 | what a loop that stops at the first interrupting action leaves, from any state with the startup control state and flags: signals `Ready, Pause` first and no `Quit`; interrupted exactly when some action of the whole schedule interrupts, and then by the last action run; an engine quit or an Escape frame always interrupts; the write side populated exactly when a generation was published |
| Visualiser.EscapeFrameInterrupts | src/Visualiser.c:299-301 | a frame whose polled events hold an Escape press interrupts the session |
| Visualiser.SurvivalScenario | src/Visualiser.c:473-538 | four organisms, one of which dies in step 1: the rate shown is 75, both series store 0.75, and the next generation shows 100 with 75 as the previous rate |
| Visualiser.UnpublishedSessionLeaks | src/Visualiser.c:579-595 | as written, a session the engine quits before any publish has sent `Quit` with both buffers still allocated |
| Visualiser.ReleaseRecords | src/Visualiser.c:580-582 | every record of the buffer is released |
| Visualiser.CopyRecords | src/Visualiser.c:485-487 | the buffer holds copies of exactly the given records |
| Visualiser.ReplaceRecords | src/Visualiser.c:479-487 | after the optional release, the buffer holds exactly the given records |
| Visualiser.CopyLiveStates | src/Visualiser.c:521-524 | every record keeps its identity and takes the live state of the matching engine record |

## Left out

- Drawing is not modelled because it only reads the model's state. This covers SDL and TTF rendering, fonts, textures, the shell text, the survival graphs and image export (`visInit` apart from lines 116 and 123-124, `visDrawShell`, the drawing half of `visDrawStep`, `visExportImage`).
- Threads and semaphores are left out. Each critical section under the buffer lock is one atomic method, and a session is a sequence of those methods. Three consequences:
  - Interleavings inside a section are not modelled.
  - A render-loop iteration (`RunFrame`, lines 327-345 and 569-571) is one atomic step, although only its copy runs under the lock. So an engine publish or quit that lands between the event handling and the refresh of one iteration is not represented.
  - Drawing reads `generation` and `step` outside the lock, so the figures shown may disagree with the read buffer. This is not captured.
- The `visualiserReadyLock` handshake after `Ready` (line 556) is left out. The engine's answer is outside this model.
- `SDL_PollEvent` becomes a sequence of input events. `SDL_Delay` pacing is left out: it waits and changes no state.
- Survival figures are exact reals. Single-precision rounding of `100.0f * survivors / population` is not modelled.
- Visualiser.Visualiser.constructor: requires a positive population. With zero organisms the source divides 0 by 0 and shows NaN.
- Visualiser.Visualiser.PublishGeneration: takes the generation number as a natural number. The source's conversion of a negative `int` into the unsigned counter is not modelled.
- Visualiser.Visualiser.PublishStep: takes the step number as a natural number. It requires it to lie inside the per-step series, and the current generation to lie inside the per-generation series, whenever a record is copied. The source indexes both series without a check and relies on the engine to respect those bounds.
- Visualiser.StoreAt: the session fold leaves a series as it is where the source would store past its end. A session's schedule keeps every step and generation inside the series, so this case does not arise in a modelled session.
- Organism internals live in a header that is not part of this model. `copyOrganism` is a value copy. `copyOrganismMutableState` copies the live part only. `destroyOrganism` resets a slot to the blank record `calloc` gives.
- The organism and simulation types themselves are not part of this model. Of the simulation, only its population, steps per generation and maximum generations are kept.
- Allocation failure is not modelled.
- `visDestroy` (the series are freed there) and `sem_destroy` are left out.
- The source's globals are grouped into three datatype-valued fields of the class: the exchange flags, the figures and the control state. Each stands for the separate variables of the same names. Freeing a buffer is modelled by its "held" flag.
- Code and intent differ in five places; the session model follows the code in all five:
  - The window-close test never fires (Findings). `ControlStepCorrected` states the intended handler beside it; no session uses it.
  - Shutdown leaves a buffer that holds no records allocated (Findings). `Shutdown` states the intended session end beside it; no session uses it.
  - With pacing on, `FramePause` is sent after a step publish even when no generation has been published yet and nothing was copied (lines 536-537).
  - `FrameContinue` is sent while disconnected whenever the visualiser is running with pacing on (line 569).
  - A refresh releases every read record before copying, whether the read side was populated or not (lines 335-338).

## Findings

| source | as written | input that shows it | evidently intended | confidence | as-written member | corrected member |
|---|---|---|---|---|---|---|
| src/Visualiser.c:291-292 | the window-close case compares the event's type field `e.window.type` (always `SDL_WINDOWEVENT`, 0x200) with the close code `SDL_WINDOWEVENT_CLOSE` (14) | a window event with code `SDL_WINDOWEVENT_CLOSE`: it is ignored and closing the window does not end the session | compare the window-event code `e.window.event`, so that closing the window sets `interrupted` | high, not executed | Control.CloseNeverSeenAsWritten | Control.WindowCloseInterrupts |
| src/Visualiser.c:579-595 | each buffer is freed only inside the branch taken when it holds records | a session interrupted (Escape or engine quit) before the engine published any generation: both `calloc`'d buffers stay allocated after `Quit` | free both buffers at shutdown whether or not they were populated | medium, not executed | Visualiser.UnpublishedSessionLeaks | Visualiser.Visualiser.Shutdown |

=== FILE: control.dfy ===
/**
 * The control surface of the visualiser: the signals it sends the engine,
 * the input events it reacts to, the run-mode label, and the pause/continue
 * protocol those signals follow.
 */
module Control {

  /** Signals sent to the engine, in the order they are sent. */
  datatype Signal = Ready | Pause | Continue | FramePause | FrameContinue | Quit

  /** SDL2's event type of every window event. */
  const SDL_WINDOWEVENT: nat := 0x200
  /** SDL2's window-event code for a close request. */
  const SDL_WINDOWEVENT_CLOSE: nat := 14

  /** The two fields of an SDL window event that the handler can look at:
      its event type and its window-event code. */
  datatype WindowEventData = WindowEventData(eventType: nat, windowEvent: nat)

  datatype Key = Escape | Space | KeyD | OtherKey(sym: int)

  datatype Event = WindowEvent(window: WindowEventData) | KeyDown(key: Key) | OtherEvent

  /** A window event as SDL delivers it: its type field is always SDL_WINDOWEVENT. */
  predicate WellFormed(e: Event) {
    e.WindowEvent? ==> e.window.eventType == SDL_WINDOWEVENT
  }

  /** The flags the handler reads and writes, and the signals sent so far. */
  datatype ControlState = ControlState(
    interrupted: bool,
    disconnected: bool,
    paused: bool,
    withDelay: bool,
    signals: seq<Signal>)

  datatype RunMode = Disconnected | Paused | Running | RunningFast

  /** The label of the shell: Disconnected wins over Paused, Paused over
      Running, and Running Fast is what is left. */
  function ModeOf(c: ControlState): (m: RunMode)
    ensures m == Disconnected <==> c.disconnected
    ensures m == Paused <==> !c.disconnected && c.paused
    ensures m == Running <==> !c.disconnected && !c.paused && c.withDelay
    ensures m == RunningFast <==> !c.disconnected && !c.paused && !c.withDelay
  {
    if c.disconnected then Disconnected
    else if c.paused then Paused
    else if c.withDelay then Running
    else RunningFast
  }

  // ---------------------------------------------------------------------
  // Window close

  /** The close test as the handler writes it: it compares the event's type
      field, not its window-event code, with the close code. */
  predicate CloseRequestedAsWritten(w: WindowEventData) {
    w.eventType == SDL_WINDOWEVENT_CLOSE
  }


  /** The close test the handler evidently intends: the window-event code. */
  predicate CloseRequested(w: WindowEventData) {
    w.windowEvent == SDL_WINDOWEVENT_CLOSE
  }

  /** The events that interrupt the session as the handler is written:
      Escape, and a window event that passes the close test as written. */
  predicate Interrupts(e: Event) {
    e == KeyDown(Escape) || (e.WindowEvent? && CloseRequestedAsWritten(e.window))
  }

  // ---------------------------------------------------------------------
  // Event handling, one event at a time

  /** Effect of one input event on the control state, with the close test
      as the handler writes it. Only the interrupting events set
      `interrupted`, only the pause toggle flips `paused` and signals the
      engine, only the speed toggle flips `withDelay`; no event clears
      `interrupted` or changes `disconnected`, and other keys and other
      events change nothing. */
  function ControlStep(c: ControlState, e: Event): (r: ControlState)
    ensures r.disconnected == c.disconnected
    ensures r.interrupted <==> c.interrupted || Interrupts(e)
    ensures r.paused != c.paused ==> e == KeyDown(Space)
    ensures r.withDelay != c.withDelay ==> e == KeyDown(KeyD)
    ensures c.signals <= r.signals && |r.signals| <= |c.signals| + 1
    ensures r.signals != c.signals ==> e == KeyDown(Space)
    ensures Quit !in c.signals ==> Quit !in r.signals
    ensures e == OtherEvent || (e.KeyDown? && e.key.OtherKey?) ==> r == c
  {
    match e
    case WindowEvent(w) =>
      if CloseRequestedAsWritten(w) then c.(interrupted := true) else c
    case KeyDown(Escape) =>
      c.(interrupted := true)
    case KeyDown(Space) =>
      if c.disconnected then c
      else c.(paused := !c.paused, signals := c.signals + [if c.paused then Continue else Pause])
    case KeyDown(KeyD) =>
      if c.disconnected || c.paused then c else c.(withDelay := !c.withDelay)
    case KeyDown(OtherKey(_)) => c
    case OtherEvent => c
  }

  /** Effect of a batch of events, handled in order: signals are only ever
      appended, at most one per event, and never `Quit`. */
  function HandleAll(c: ControlState, es: seq<Event>): (r: ControlState)
    ensures r.disconnected == c.disconnected
    ensures c.interrupted ==> r.interrupted
    ensures c.signals <= r.signals && |r.signals| <= |c.signals| + |es|
    ensures Quit !in c.signals ==> Quit !in r.signals
  {
    if es == [] then c else ControlStep(HandleAll(c, es[..|es| - 1]), es[|es| - 1])
  }

  /** Escape interrupts the session, whatever the state, and changes
      nothing else. */
  lemma EscapeInterrupts(c: ControlState)
    ensures ControlStep(c, KeyDown(Escape)) == c.(interrupted := true)
  {
  }

  /** A batch of events interrupts the session exactly when it was already
      interrupted or one of its events interrupts it; in particular, any
      batch holding an Escape press does. */
  lemma {:induction false} HandleAllInterrupted(c: ControlState, es: seq<Event>)
    ensures HandleAll(c, es).interrupted <==>
      c.interrupted || exists i :: 0 <= i < |es| && Interrupts(es[i])
    ensures KeyDown(Escape) in es ==> HandleAll(c, es).interrupted
  {
    if es != [] {
      var front := es[..|es| - 1];
      HandleAllInterrupted(c, front);
      assert forall i :: 0 <= i < |front| ==> front[i] == es[i];
    }
  }

  /** As written, among the events SDL delivers only Escape interrupts a
      session: a batch interrupts it exactly when it was interrupted already
      or the batch holds an Escape press. */
  lemma OnlyEscapeInterrupts(c: ControlState, es: seq<Event>)
    requires forall i :: 0 <= i < |es| ==> WellFormed(es[i])
    ensures HandleAll(c, es).interrupted <==> c.interrupted || KeyDown(Escape) in es
  {
    HandleAllInterrupted(c, es);
  }

  /** As written, no window event SDL can deliver is taken for a close
      request, the close request itself included: the handler leaves the
      state as it was. */
  lemma CloseNeverSeenAsWritten(c: ControlState, w: WindowEventData)
    requires WellFormed(WindowEvent(w))
    ensures !CloseRequestedAsWritten(w)
    ensures ControlStep(c, WindowEvent(w)) == c
  {
  }

  /** The handler with the close test it evidently intends; every other
      event is handled as before. */
  function ControlStepCorrected(c: ControlState, e: Event): (r: ControlState)
    ensures WellFormed(e) && !(e.WindowEvent? && CloseRequested(e.window)) ==> r == ControlStep(c, e)
  {
    match e
    case WindowEvent(w) =>
      if CloseRequested(w) then c.(interrupted := true) else c
    case _ => ControlStep(c, e)
  }

  /** With the corrected test, a window close request interrupts the
      session, whatever the state, and changes nothing else. */
  lemma WindowCloseInterrupts(c: ControlState, w: WindowEventData)
    requires w.windowEvent == SDL_WINDOWEVENT_CLOSE
    ensures ControlStepCorrected(c, WindowEvent(w)) == c.(interrupted := true)
  {
  }

  /** The pause toggle: a no-op while disconnected; otherwise exactly one
      signal, `Continue` when paused and `Pause` when running, and the
      paused flag flips. */
  lemma SpaceToggle(c: ControlState)
    ensures c.disconnected ==> ControlStep(c, KeyDown(Space)) == c
    ensures !c.disconnected ==>
      && ControlStep(c, KeyDown(Space)).paused == !c.paused
      && ControlStep(c, KeyDown(Space)).signals == c.signals + [if c.paused then Continue else Pause]
  {
  }

  /** Run-mode transitions of the two toggles: the pause toggle moves
      between Paused and the running modes, the speed toggle between Running
      and Running Fast and leaves every other mode alone; Disconnected
      absorbs every key. */
  lemma ModeTransitions(c: ControlState)
    ensures ModeOf(c) == Disconnected ==>
      forall k: Key :: ModeOf(ControlStep(c, KeyDown(k))) == Disconnected
    ensures ModeOf(c) == Paused ==>
      ModeOf(ControlStep(c, KeyDown(Space))) == (if c.withDelay then Running else RunningFast)
    ensures ModeOf(c) in {Running, RunningFast} ==> ModeOf(ControlStep(c, KeyDown(Space))) == Paused
    ensures ModeOf(c) == Running ==> ModeOf(ControlStep(c, KeyDown(KeyD))) == RunningFast
    ensures ModeOf(c) == RunningFast ==> ModeOf(ControlStep(c, KeyDown(KeyD))) == Running
    ensures ModeOf(c) == Paused ==> ControlStep(c, KeyDown(KeyD)) == c
    ensures c.disconnected ==> ControlStep(c, KeyDown(KeyD)) == c
  {
  }

  /** The speed toggle flips `withDelay` exactly when neither disconnected
      nor paused, and changes nothing else. */
  lemma SpeedToggle(c: ControlState)
    ensures c.disconnected || c.paused ==> ControlStep(c, KeyDown(KeyD)) == c
    ensures !c.disconnected && !c.paused ==> ControlStep(c, KeyDown(KeyD)) == c.(withDelay := !c.withDelay)
  {
  }

  /** The speed toggle never signals the engine. */
  lemma {:induction false} SpeedToggleIsSilent(c: ControlState, es: seq<Event>)
    requires forall i :: 0 <= i < |es| ==> es[i] != KeyDown(Space)
    ensures HandleAll(c, es).signals == c.signals
    ensures HandleAll(c, es).paused == c.paused
  {
    if es != [] {
      SpeedToggleIsSilent(c, es[..|es| - 1]);
    }
  }

  // ---------------------------------------------------------------------
  // The pause/continue protocol

  predicate IsPauseSignal(s: Signal) {
    s == Pause || s == Continue
  }

  /** The pause and continue signals of a trace, in order. */
  function PauseSignals(t: seq<Signal>): (p: seq<Signal>)
    ensures |p| <= |t|
    ensures forall i :: 0 <= i < |p| ==> IsPauseSignal(p[i])
  {
    if t == [] then []
    else (if IsPauseSignal(t[0]) then [t[0]] else []) + PauseSignals(t[1..])
  }

  lemma {:induction false} PauseSignalsAppend(a: seq<Signal>, b: seq<Signal>)
    ensures PauseSignals(a + b) == PauseSignals(a) + PauseSignals(b)
  {
    if a == [] {
      assert a + b == b;
    } else {
      assert (a + b)[1..] == a[1..] + b;
      PauseSignalsAppend(a[1..], b);
    }
  }

  /** No two consecutive entries are equal. */
  ghost predicate Alternating(p: seq<Signal>) {
    |p| <= 1 || (p[0] != p[1] && Alternating(p[1..]))
  }

  /** An alternating sequence extended by an entry different from its last
      one still alternates. */
  lemma {:induction false} AlternatingSnoc(p: seq<Signal>, s: Signal)
    requires Alternating(p)
    requires p != [] ==> p[|p| - 1] != s
    ensures Alternating(p + [s])
  {
    if |p| > 1 {
      assert (p + [s])[1..] == p[1..] + [s];
      AlternatingSnoc(p[1..], s);
    }
  }

  /** Every adjacent pair of an alternating sequence differs. */
  lemma {:induction false} AlternatingAt(p: seq<Signal>, i: nat)
    requires Alternating(p) && i + 1 < |p|
    ensures p[i] != p[i + 1]
  {
    if i > 0 {
      AlternatingAt(p[1..], i - 1);
    }
  }

  /** While the session runs, the engine has been told about every pause
      state in turn: the pause signals alternate and the last one sent says
      whether the visualiser is paused. */
  ghost predicate PauseProtocol(c: ControlState) {
    var p := PauseSignals(c.signals);
    && p != []
    && Alternating(p)
    && (c.paused <==> p[|p| - 1] == Pause)
  }

  /** Appending signals other than pause and continue keeps the protocol. */
  lemma OtherSignalsKeepProtocol(c: ControlState, extra: seq<Signal>)
    requires PauseProtocol(c)
    requires forall i :: 0 <= i < |extra| ==> !IsPauseSignal(extra[i])
    ensures PauseSignals(c.signals + extra) == PauseSignals(c.signals)
    ensures PauseProtocol(c.(signals := c.signals + extra))
  {
    PauseSignalsAppend(c.signals, extra);
    NoPauseSignals(extra);
  }

  lemma {:induction false} NoPauseSignals(t: seq<Signal>)
    requires forall i :: 0 <= i < |t| ==> !IsPauseSignal(t[i])
    ensures PauseSignals(t) == []
  {
    if t != [] {
      NoPauseSignals(t[1..]);
    }
  }

  lemma PauseSignalsOne(s: Signal)
    ensures PauseSignals([s]) == if IsPauseSignal(s) then [s] else []
  {
    assert [s][1..] == [];
  }

  /** Every event keeps the protocol. */
  lemma ControlStepKeepsProtocol(c: ControlState, e: Event)
    requires PauseProtocol(c)
    ensures PauseProtocol(ControlStep(c, e))
  {
    var c' := ControlStep(c, e);
    if e == KeyDown(Space) && !c.disconnected {
      var s := if c.paused then Continue else Pause;
      PauseSignalsAppend(c.signals, [s]);
      PauseSignalsOne(s);
      var p := PauseSignals(c.signals);
      assert PauseSignals(c'.signals) == p + [s];
      AlternatingSnoc(p, s);
    }
  }

  /** Every batch of events keeps the protocol. */
  lemma {:induction false} HandleAllKeepsProtocol(c: ControlState, es: seq<Event>)
    requires PauseProtocol(c)
    ensures PauseProtocol(HandleAll(c, es))
  {
    if es != [] {
      HandleAllKeepsProtocol(c, es[..|es| - 1]);
      ControlStepKeepsProtocol(HandleAll(c, es[..|es| - 1]), es[|es| - 1]);
    }
  }

  /** Consecutive pause and continue signals caused by input alternate: two
      pause toggles in a row send `Continue` then `Pause`, or the reverse. */
  lemma TwoTogglesAlternate(c: ControlState)
    requires !c.disconnected
    ensures var c2 := ControlStep(ControlStep(c, KeyDown(Space)), KeyDown(Space));
      && c2.paused == c.paused
      && c2.signals == c.signals + (if c.paused then [Continue, Pause] else [Pause, Continue])
  {
  }

  /** A prefix of a signal sequence stays a prefix when more is sent. */
  lemma PrefixExtends(a: seq<Signal>, b: seq<Signal>, t: seq<Signal>)
    requires a <= b
    ensures a <= b + t
  {
    assert (b + t)[..|a|] == b[..|a|];
  }

  // ---------------------------------------------------------------------
  // Pacing and shutdown

  /** What a loop iteration sends after drawing: `FrameContinue` releases the
      engine's next step when running with pacing on. */
  function PacingSignals(c: ControlState): (t: seq<Signal>)
    ensures t == [] || t == [FrameContinue]
    ensures ModeOf(c) == Running ==> t == [FrameContinue]
    ensures ModeOf(c) in {Paused, RunningFast} ==> t == []
    ensures c.disconnected ==> (t == [FrameContinue] <==> !c.paused && c.withDelay)
  {
    if !c.paused && c.withDelay then [FrameContinue] else []
  }

  /** What shutdown sends: a `Continue` if paused, so the engine is not left
      waiting, then `Quit`. */
  function ShutdownSignals(paused: bool): (t: seq<Signal>)
    ensures |t| == if paused then 2 else 1
    ensures t != [] && t[|t| - 1] == Quit
    ensures Quit !in t[..|t| - 1]
    ensures PauseSignals(t) == if paused then [Continue] else []
  {
    PauseSignalsOne(Quit);
    if paused then
      PauseSignalsAppend([Continue], [Quit]);
      PauseSignalsOne(Continue);
      [Continue, Quit]
    else [Quit]
  }

  /** Shutdown keeps the pause signals alternating. */
  lemma ShutdownKeepsAlternation(c: ControlState)
    requires PauseProtocol(c)
    ensures Alternating(PauseSignals(c.signals + ShutdownSignals(c.paused)))
  {
    var p := PauseSignals(c.signals);
    PauseSignalsAppend(c.signals, ShutdownSignals(c.paused));
    if c.paused {
      AlternatingSnoc(p, Continue);
    } else {
      assert p + [] == p;
    }
  }

  /** The state of the session once it has ended: `Quit` was sent once and
      last, and the pause signals alternate throughout. */
  ghost predicate Ended(c: ControlState) {
    && c.interrupted
    && c.signals != [] && c.signals[|c.signals| - 1] == Quit
    && Quit !in c.signals[..|c.signals| - 1]
    && Alternating(PauseSignals(c.signals))
  }

  /** Shutdown ends a running session: afterwards `Quit` has been sent once
      and last, the pause signals still alternate, and what was sent before
      is kept as it was. */
  lemma ShutdownEnds(c: ControlState)
    requires c.interrupted && PauseProtocol(c) && Quit !in c.signals
    ensures var e := c.(signals := c.signals + ShutdownSignals(c.paused));
      && Ended(e)
      && SessionProtocol(e)
      && c.signals <= e.signals
  {
    var t := ShutdownSignals(c.paused);
    var e := c.(signals := c.signals + t);
    ShutdownKeepsAlternation(c);
    assert e.signals[..|e.signals| - 1] == c.signals + t[..|t| - 1];
    assert e.signals[|e.signals| - 1] == Quit;
  }

  /** The protocol invariant of a whole session. */
  ghost predicate SessionProtocol(c: ControlState) {
    if Quit in c.signals then Ended(c) else PauseProtocol(c)
  }
}

=== FILE: organisms.dfy ===
/**
 * Organism records as the visualiser sees them.
 *
 * The engine's organism type is declared in a header that is not part of
 * this model; here a record is split into an identity part (everything that
 * is fixed for a generation: genome, brain wiring, colour) and a live part
 * (what changes from step to step, including the alive flag). A deep copy
 * of a record is a plain value copy.
 */
module Organisms {

  datatype Pos = Pos(x: int, y: int)

  /** The structural part of a record; only a generation publish replaces it. */
  datatype Identity = Identity(genome: seq<int>)

  /** The part of a record the engine updates at every step. */
  datatype LiveState = LiveState(pos: Pos, alive: bool)

  datatype Organism = Organism(identity: Identity, state: LiveState)

  /** The all-zero record: what a freshly calloc'd slot holds, and what a
      released slot is taken to hold (it owns nothing). */
  const Blank := Organism(Identity([]), LiveState(Pos(0, 0), false))

  /** Overwrites the live part of `dst` with that of `src`, keeping the
      identity of `dst` (the per-record copy of a step publish). */
  function CopyLiveState(dst: Organism, src: Organism): Organism {
    Organism(dst.identity, src.state)
  }

  /** Number of records whose alive flag is set. */
  function AliveCount(s: seq<Organism>): (n: nat)
    ensures n <= |s|
  {
    if s == [] then 0
    else AliveCount(s[..|s| - 1]) + (if s[|s| - 1].state.alive then 1 else 0)
  }

  /** Every record is alive exactly when the count reaches the population. */
  lemma {:induction false} AliveCountAll(s: seq<Organism>)
    ensures AliveCount(s) == |s| <==> forall i :: 0 <= i < |s| ==> s[i].state.alive
  {
    if s != [] {
      var init := s[..|s| - 1];
      AliveCountAll(init);
      assert forall i :: 0 <= i < |init| ==> init[i] == s[i];
    }
  }

  /** No record alive exactly when the count is zero. */
  lemma {:induction false} AliveCountNone(s: seq<Organism>)
    ensures AliveCount(s) == 0 <==> forall i :: 0 <= i < |s| ==> !s[i].state.alive
  {
    if s != [] {
      var init := s[..|s| - 1];
      AliveCountNone(init);
      assert forall i :: 0 <= i < |init| ==> init[i] == s[i];
    }
  }

  /** The count depends on the live parts only: two populations whose live
      parts agree record by record have the same count. */
  lemma {:induction false} AliveCountLiveOnly(a: seq<Organism>, b: seq<Organism>)
    requires |a| == |b|
    requires forall i :: 0 <= i < |a| ==> a[i].state == b[i].state
    ensures AliveCount(a) == AliveCount(b)
  {
    if a != [] {
      AliveCountLiveOnly(a[..|a| - 1], b[..|b| - 1]);
    }
  }

  /** Counting one more record adds one exactly when that record is alive. */
  lemma AliveCountSnoc(s: seq<Organism>, o: Organism)
    ensures AliveCount(s + [o]) == AliveCount(s) + (if o.state.alive then 1 else 0)
  {
    assert (s + [o])[..|s|] == s;
  }
}

=== FILE: survival.dfy ===
/**
 * Survival figures. The source keeps them as floats; the model keeps exact
 * rationals built from integer alive counts, so the rate shown to the user
 * is `100 * survivors / population` and a series entry is
 * `survivors / population`.
 */
module Survival {
  import opened Organisms

  /** The fraction of the population alive, the unit of both series. */
  function Ratio(survivors: nat, population: nat): (r: real)
    requires 0 < population && survivors <= population
    ensures 0.0 <= r <= 1.0
    ensures r == 1.0 <==> survivors == population
    ensures r == 0.0 <==> survivors == 0
  {
    survivors as real / population as real
  }

  /** The survival rate in percent. */
  function Percent(survivors: nat, population: nat): (r: real)
    requires 0 < population && survivors <= population
    ensures 0.0 <= r <= 100.0
    ensures r / 100.0 == Ratio(survivors, population)
    ensures r == 100.0 <==> survivors == population
  {
    100.0 * Ratio(survivors, population)
  }

  /** Counts the alive records among the first `population` entries of
      `orgs` and returns the rate in percent. */
  method CalculateSurvivalRate(orgs: array<Organism>, population: nat) returns (rate: real)
    requires 0 < population <= orgs.Length
    ensures rate == Percent(AliveCount(orgs[..population]), population)
    ensures 0.0 <= rate <= 100.0
  {
    var survivors: nat := 0;
    var i := 0;
    while i < population
      invariant 0 <= i <= population
      invariant survivors == AliveCount(orgs[..i])
    {
      AliveCountSnoc(orgs[..i], orgs[i]);
      assert orgs[..i + 1] == orgs[..i] + [orgs[i]];
      if orgs[i].state.alive {
        survivors := survivors + 1;
      }
      i := i + 1;
    }
    rate := 100.0 * survivors as real / population as real;
    PercentFormula(survivors, population);
  }

  /** The source's formula, scaling before dividing, gives the same figure. */
  lemma PercentFormula(survivors: nat, population: nat)
    requires 0 < population && survivors <= population
    ensures 100.0 * survivors as real / population as real == Percent(survivors, population)
  {
  }
}

=== FILE: visualiser.dfy ===
/**
 * The visualiser's snapshot exchange and session control.
 *
 * The engine publishes whole generations and single steps into a write
 * buffer; the render loop copies the write buffer into a read buffer when a
 * change is pending and draws from the read buffer. Each method that the
 * source runs under the buffer lock is one atomic method here. The signals
 * the visualiser sends the engine are appended to `control.signals` in call
 * order.
 *
 * The module-level variables of the source are grouped into three fields:
 * the exchange flags, the figures shown in the shell, and the control state
 * (the flags the event handler reads and writes, with the signals sent).
 */
module Visualiser {
  import opened Organisms
  import opened Survival
  import opened Control

  datatype Rect = Rect(x: int, y: int, w: int, h: int)

  /** The change flags, the populated flags, and whether each buffer is
      still allocated (its pointer is not NULL). */
  datatype ExchangeFlags = ExchangeFlags(
    stepChanged: bool,
    generationChanged: bool,
    writeablePopulated: bool,
    readablePopulated: bool,
    writeHeld: bool,
    readHeld: bool)

  /** The generation and step last published and the survival figures, in
      percent; `previousSurvivalRate` is -1 until a second generation starts. */
  datatype Progress = Progress(
    generation: nat,
    step: nat,
    survivalRate: real,
    previousSurvivalRate: real)

  /** One atomic action of a session: an iteration of the render loop with
      the input events polled in it, or one call the engine makes. */
  datatype Action =
    | Frame(events: seq<Event>)
    | EngineGeneration(orgs: seq<Organism>, g: nat)
    | EngineStep(orgs: seq<Organism>, s: nat)
    | EngineDisconnected
    | EngineQuit

  /** Generation and step numbers inside the series the engine sized. */
  predicate InSeries(a: Action, stepsPerGeneration: nat, maxGenerations: nat) {
    match a
    case EngineGeneration(_, g) => g < maxGenerations
    case EngineStep(_, s) => s < stepsPerGeneration
    case _ => true
  }

  /** What the engine must respect when calling in: whole populations, and
      generation and step numbers inside the series it sized. */
  predicate ActionFits(a: Action, population: nat, stepsPerGeneration: nat, maxGenerations: nat) {
    WholePopulation(a, population) && InSeries(a, stepsPerGeneration, maxGenerations)
  }

  /** Every slot of the buffer holds the blank record: it owns nothing. */
  ghost predicate Blanked(a: array<Organism>)
    reads a
  {
    forall i :: 0 <= i < a.Length ==> a[i] == Blank
  }

  /** A fresh buffer of `n` blank records. */
  method NewBuffer(n: nat) returns (a: array<Organism>)
    ensures fresh(a) && a.Length == n && Blanked(a)
    ensures a[..] == seq(n, _ => Blank)
  {
    a := new Organism[n](_ => Blank);
  }

  /** A fresh series of `n` zero figures. */
  method NewSeries(n: nat) returns (a: array<real>)
    ensures fresh(a) && a.Length == n && forall i :: 0 <= i < n ==> a[i] == 0.0
    ensures a[..] == seq(n, _ => 0.0)
  {
    a := new real[n](_ => 0.0);
  }

  /** What a publish sends after releasing the lock: `FramePause` with
      pacing on. */
  function PublishSignals(c: ControlState): (t: seq<Signal>)
    ensures c.withDelay ==> t == [FramePause]
    ensures !c.withDelay ==> t == []
  {
    if c.withDelay then [FramePause] else []
  }

  /** Backpressure: whenever a loop iteration releases the engine with
      `FrameContinue`, each publish holds it back again with `FramePause`;
      running fast, neither is sent. */
  lemma PublishPausesWhatFramesRelease(c: ControlState)
    ensures PublishSignals(c) == [] || PublishSignals(c) == [FramePause]
    ensures PacingSignals(c) != [] ==> PublishSignals(c) == [FramePause]
    ensures ModeOf(c) == RunningFast ==> PublishSignals(c) == [] && PacingSignals(c) == []
  {
  }

  /** An action that interrupts a running session: the engine's quit, or a
      frame whose polled events interrupt it (Escape, as written). */
  predicate Interrupting(a: Action) {
    a.EngineQuit? || (a.Frame? && exists i :: 0 <= i < |a.events| && Interrupts(a.events[i]))
  }

  /** The engine passes whole populations. */
  predicate WholePopulation(a: Action, population: nat) {
    (a.EngineGeneration? || a.EngineStep?) ==> |a.orgs| == population
  }

  /** The contents of the two buffers and the two series. */
  datatype Contents = Contents(write: seq<Organism>, read: seq<Organism>, stepSeries: seq<real>, genSeries: seq<real>)

  /** The contents at startup: calloc'd buffers of blank records and series
      of zeros. */
  function StartContents(population: nat, stepsPerGeneration: nat, maxGenerations: nat): Contents {
    Contents(seq(population, _ => Blank), seq(population, _ => Blank),
      seq(stepsPerGeneration, _ => 0.0), seq(maxGenerations, _ => 0.0))
  }

  /** The write side after a step publish: every record keeps its identity
      and takes the live part of the engine's matching record. */
  function LiveCopied(w: seq<Organism>, orgs: seq<Organism>): (r: seq<Organism>)
    requires |w| == |orgs|
    ensures |r| == |w|
    ensures forall i :: 0 <= i < |r| ==> r[i].identity == w[i].identity && r[i].state == orgs[i].state
  {
    seq(|w|, i requires 0 <= i < |w| => CopyLiveState(w[i], orgs[i]))
  }

  /** A series with `x` stored at `i`. A running session never stores
      outside the series (see `Perform`); the model leaves the series as it
      is there, where the source would write past the array. */
  function StoreAt(xs: seq<real>, i: nat, x: real): (r: seq<real>)
    ensures i < |xs| ==> r == xs[i := x]
  {
    if i < |xs| then xs[i := x] else xs
  }

  /** The state of a session: the control state, the exchange flags, the
      figures, and the contents of the buffers and the series. */
  datatype SessionState = SessionState(control: ControlState, flags: ExchangeFlags, progress: Progress, contents: Contents)

  /** The control state at startup, once `Ready` and `Pause` are sent. */
  const StartControl := ControlState(false, false, true, true, [Ready, Pause])

  /** The exchange flags at startup: nothing pending or populated, both
      buffers allocated. */
  const StartFlags := ExchangeFlags(false, false, false, false, true, true)

  /** The session state at startup, once `Ready` and `Pause` are sent. */
  function SessionStart(population: nat, stepsPerGeneration: nat, maxGenerations: nat): SessionState {
    SessionState(StartControl, StartFlags, Progress(0, 0, 100.0, -1.0),
      StartContents(population, stepsPerGeneration, maxGenerations))
  }

  /** What one action of a running session does to the control state: a
      frame handles its events and sends the pacing signal, a publish sends
      the publish signal, and the engine's disconnect and quit set their
      flag. */
  function ActionControl(c: ControlState, a: Action): ControlState {
    match a
    case Frame(events) =>
      var h := HandleAll(c, events);
      h.(signals := h.signals + PacingSignals(h))
    case EngineGeneration(_, _) => c.(signals := c.signals + PublishSignals(c))
    case EngineStep(_, _) => c.(signals := c.signals + PublishSignals(c))
    case EngineDisconnected => c.(disconnected := true)
    case EngineQuit => c.(interrupted := true)
  }

  /** What one action of a running session does to the exchange flags, given
      whether the session is interrupted once the action is done: a frame
      refreshes when not interrupted by its events and a change is pending; a
      generation publish sets both change flags and the populated flag; a step
      publish, once a generation is there, sets the step flag. */
  function ActionFlags(f: ExchangeFlags, interrupted: bool, a: Action): ExchangeFlags {
    match a
    case Frame(_) =>
      if !interrupted && (f.stepChanged || f.generationChanged) then
        f.(stepChanged := false, generationChanged := false, readablePopulated := true)
      else f
    case EngineGeneration(_, _) => f.(stepChanged := true, generationChanged := true, writeablePopulated := true)
    case EngineStep(_, _) => if f.writeablePopulated then f.(stepChanged := true) else f
    case _ => f
  }

  /** What one action of a running session does to the figures: a generation
      publish records the generation, resets the step and the survival rate,
      and from the second generation on keeps the current rate as the
      previous one; a step publish, once a generation is there, records the
      step and the survival rate of the engine's population. */
  function ActionProgress(p: Progress, populated: bool, population: nat, a: Action): Progress
    requires 0 < population && WholePopulation(a, population)
  {
    match a
    case EngineGeneration(_, g) =>
      Progress(g, 0, 100.0, if g > 0 then p.survivalRate else p.previousSurvivalRate)
    case EngineStep(orgs, step) =>
      if populated then p.(step := step, survivalRate := Percent(AliveCount(orgs), population)) else p
    case _ => p
  }

  /** What one action of a running session does to the buffers and the
      series, given the exchange flags and the generation before it and
      whether the session is interrupted once it is done: a frame that
      refreshes copies the write side into the read side; a generation
      publish fills the write side with the engine's records; a step publish,
      once a generation is there, takes the live part of each record and
      stores the survival ratio at the step and at the generation. */
  function ActionContents(b: Contents, f: ExchangeFlags, generation: nat, interrupted: bool,
                          population: nat, a: Action): (r: Contents)
    requires 0 < population && WholePopulation(a, population) && |b.write| == population
    ensures |r.write| == population
  {
    match a
    case Frame(_) =>
      if !interrupted && (f.stepChanged || f.generationChanged) then b.(read := b.write) else b
    case EngineGeneration(orgs, _) => b.(write := orgs)
    case EngineStep(orgs, s) =>
      if f.writeablePopulated then
        var ratio := Ratio(AliveCount(orgs), population);
        b.(write := LiveCopied(b.write, orgs),
           stepSeries := StoreAt(b.stepSeries, s, ratio),
           genSeries := StoreAt(b.genSeries, generation, ratio))
      else b
    case _ => b
  }

  /** What one action of a running session does to the session state. */
  function AfterAction(s: SessionState, population: nat, a: Action): SessionState
    requires 0 < population && WholePopulation(a, population) && |s.contents.write| == population
  {
    var c := ActionControl(s.control, a);
    SessionState(c, ActionFlags(s.flags, c.interrupted, a),
      ActionProgress(s.progress, s.flags.writeablePopulated, population, a),
      ActionContents(s.contents, s.flags, s.progress.generation, c.interrupted, population, a))
  }

  /** The control state after the first `n` actions, run in order: it
      depends on nothing but the control state. */
  function ControlAfter(c: ControlState, actions: seq<Action>, n: nat): ControlState
    requires n <= |actions|
  {
    if n == 0 then c else ActionControl(ControlAfter(c, actions, n - 1), actions[n - 1])
  }

  /** The exchange flags after the first `n` actions, run in order from the
      session state `s`. */
  function FlagsAfter(s: SessionState, actions: seq<Action>, n: nat): ExchangeFlags
    requires n <= |actions|
  {
    if n == 0 then s.flags
    else ActionFlags(FlagsAfter(s, actions, n - 1), ControlAfter(s.control, actions, n).interrupted, actions[n - 1])
  }

  /** The figures after the first `n` actions, run in order from the session
      state `s`. */
  function ProgressAfter(s: SessionState, population: nat, actions: seq<Action>, n: nat): Progress
    requires 0 < population && n <= |actions|
    requires forall j :: 0 <= j < |actions| ==> WholePopulation(actions[j], population)
  {
    if n == 0 then s.progress
    else ActionProgress(ProgressAfter(s, population, actions, n - 1),
      FlagsAfter(s, actions, n - 1).writeablePopulated, population, actions[n - 1])
  }

  /** The buffers and the series after the first `n` actions, run in order
      from the session state `s` and the contents `b`. */
  function ContentsAfter(s: SessionState, population: nat, actions: seq<Action>, n: nat): (r: Contents)
    requires 0 < population && n <= |actions| && |s.contents.write| == population
    requires forall j :: 0 <= j < |actions| ==> WholePopulation(actions[j], population)
    ensures |r.write| == population
  {
    if n == 0 then s.contents
    else ActionContents(ContentsAfter(s, population, actions, n - 1), FlagsAfter(s, actions, n - 1),
      ProgressAfter(s, population, actions, n - 1).generation, ControlAfter(s.control, actions, n).interrupted,
      population, actions[n - 1])
  }

  /** The session state after the first `n` actions, run in order. */
  function AfterActions(s: SessionState, population: nat, actions: seq<Action>, n: nat): SessionState
    requires 0 < population && n <= |actions| && |s.contents.write| == population
    requires forall j :: 0 <= j < |actions| ==> WholePopulation(actions[j], population)
  {
    SessionState(ControlAfter(s.control, actions, n), FlagsAfter(s, actions, n),
      ProgressAfter(s, population, actions, n), ContentsAfter(s, population, actions, n))
  }

  /** Running one more action is doing that action to the session state
      the earlier ones left. */
  lemma AfterActionsStep(s: SessionState, population: nat, actions: seq<Action>, n: nat)
    requires 0 < population && 0 < n <= |actions| && |s.contents.write| == population
    requires forall j :: 0 <= j < |actions| ==> WholePopulation(actions[j], population)
    ensures AfterActions(s, population, actions, n) ==
      AfterAction(AfterActions(s, population, actions, n - 1), population, actions[n - 1])
  {
  }

  /** The first `n` actions interrupt the session exactly when it was already
      interrupted or one of them interrupts it. */
  lemma {:induction false} ControlAfterInterrupted(c: ControlState, actions: seq<Action>, n: nat)
    requires n <= |actions|
    ensures ControlAfter(c, actions, n).interrupted <==>
      c.interrupted || exists j :: 0 <= j < n && Interrupting(actions[j])
  {
    if n > 0 {
      ControlAfterInterrupted(c, actions, n - 1);
      ActionControlInterrupted(ControlAfter(c, actions, n - 1), actions[n - 1]);
    }
  }

  /** A run that stops as soon as the session is interrupted: if the first
      `n` actions leave it interrupted, the last of them interrupted it;
      otherwise none of them did. */
  lemma RunStopsAtInterruption(c: ControlState, actions: seq<Action>, n: nat)
    requires n <= |actions|
    requires !c.interrupted
    requires 0 < n ==> !ControlAfter(c, actions, n - 1).interrupted
    ensures ControlAfter(c, actions, n).interrupted ==> 0 < n && Interrupting(actions[n - 1])
    ensures !ControlAfter(c, actions, n).interrupted ==> forall j :: 0 <= j < n ==> !Interrupting(actions[j])
  {
    ControlAfterInterrupted(c, actions, n);
    if 0 < n {
      ActionControlInterrupted(ControlAfter(c, actions, n - 1), actions[n - 1]);
    }
  }

  /** An action interrupts the session exactly when it is an interrupting
      one, and no action clears the interruption. */
  lemma ActionControlInterrupted(c: ControlState, a: Action)
    ensures ActionControl(c, a).interrupted <==> c.interrupted || Interrupting(a)
  {
    if a.Frame? {
      HandleAllInterrupted(c, a.events);
    }
  }

  /** After the first `n` actions the write side is populated exactly when it
      was before or one of them published a generation. */
  lemma {:induction false} FlagsAfterPopulated(s: SessionState, actions: seq<Action>, n: nat)
    requires n <= |actions|
    ensures FlagsAfter(s, actions, n).writeablePopulated <==>
      s.flags.writeablePopulated || exists j :: 0 <= j < n && actions[j].EngineGeneration?
  {
    if n > 0 {
      FlagsAfterPopulated(s, actions, n - 1);
      ActionFlagsPopulated(FlagsAfter(s, actions, n - 1), ControlAfter(s.control, actions, n).interrupted, actions[n - 1]);
    }
  }

  /** Only a generation publish populates the write side, and nothing
      depopulates it while the session runs. */
  lemma ActionFlagsPopulated(f: ExchangeFlags, interrupted: bool, a: Action)
    ensures ActionFlags(f, interrupted, a).writeablePopulated <==> f.writeablePopulated || a.EngineGeneration?
  {
  }

  /** Every action only appends signals, and never sends `Quit`. */
  lemma ActionControlAppends(c: ControlState, a: Action)
    requires Quit !in c.signals
    ensures var r := ActionControl(c, a);
      Quit !in r.signals && c.signals <= r.signals
  {
    if a.Frame? {
      var h := HandleAll(c, a.events);
      PrefixExtends(c.signals, h.signals, PacingSignals(h));
    } else if a.EngineGeneration? || a.EngineStep? {
      PrefixExtends(c.signals, c.signals, PublishSignals(c));
    }
  }

  /** Every action keeps the pause protocol. */
  lemma ActionControlKeepsProtocol(c: ControlState, a: Action)
    requires PauseProtocol(c)
    ensures PauseProtocol(ActionControl(c, a))
  {
    if a.Frame? {
      var h := HandleAll(c, a.events);
      HandleAllKeepsProtocol(c, a.events);
      OtherSignalsKeepProtocol(h, PacingSignals(h));
    } else if a.EngineGeneration? || a.EngineStep? {
      OtherSignalsKeepProtocol(c, PublishSignals(c));
    }
  }

  /** The first `n` actions only append signals, and never send `Quit`. */
  lemma {:induction false} ControlAfterAppends(c: ControlState, actions: seq<Action>, n: nat)
    requires n <= |actions|
    requires Quit !in c.signals
    ensures var r := ControlAfter(c, actions, n);
      Quit !in r.signals && c.signals <= r.signals
  {
    if n > 0 {
      ControlAfterAppends(c, actions, n - 1);
      ActionControlAppends(ControlAfter(c, actions, n - 1), actions[n - 1]);
    }
  }

  /** The first `n` actions keep the pause protocol. */
  lemma {:induction false} ControlAfterKeepsProtocol(c: ControlState, actions: seq<Action>, n: nat)
    requires n <= |actions|
    requires PauseProtocol(c)
    ensures PauseProtocol(ControlAfter(c, actions, n))
  {
    if n > 0 {
      ControlAfterKeepsProtocol(c, actions, n - 1);
      ActionControlKeepsProtocol(ControlAfter(c, actions, n - 1), actions[n - 1]);
    }
  }

  /** With no step change pending the read side is the write side: every
      action keeps this. */
  lemma ActionContentsSynced(b: Contents, f: ExchangeFlags, generation: nat, interrupted: bool,
                             population: nat, a: Action)
    requires 0 < population && WholePopulation(a, population) && |b.write| == population
    requires !f.stepChanged ==> b.read == b.write
    ensures var r := ActionContents(b, f, generation, interrupted, population, a);
      !ActionFlags(f, interrupted, a).stepChanged ==> r.read == r.write
  {
  }

  /** With no step change pending the read side is the write side, after
      any number of actions. */
  lemma {:induction false} ContentsAfterSynced(s: SessionState, population: nat, actions: seq<Action>, n: nat)
    requires 0 < population && n <= |actions| && |s.contents.write| == population
    requires forall j :: 0 <= j < |actions| ==> WholePopulation(actions[j], population)
    requires !s.flags.stepChanged ==> s.contents.read == s.contents.write
    ensures var r := ContentsAfter(s, population, actions, n);
      !FlagsAfter(s, actions, n).stepChanged ==> r.read == r.write
  {
    if n > 0 {
      ContentsAfterSynced(s, population, actions, n - 1);
      ActionContentsSynced(ContentsAfter(s, population, actions, n - 1), FlagsAfter(s, actions, n - 1),
        ProgressAfter(s, population, actions, n - 1).generation, ControlAfter(s.control, actions, n).interrupted,
        population, actions[n - 1]);
    }
  }

  class Visualiser {
    // Session configuration.
    const population: nat
    const stepsPerGeneration: nat
    const maxGenerations: nat

    // drawableOrgsWrite and drawableOrgsRead.
    const write: array<Organism>
    const read: array<Organism>
    var flags: ExchangeFlags

    var progress: Progress
    const stepSeries: array<real>
    const genSeries: array<real>

    var obstacles: seq<Rect>

    var control: ControlState

    /** The sizes fixed at session start. */
    ghost predicate Shape()
    {
      && 0 < population
      && write.Length == population && read.Length == population
      && stepSeries.Length == stepsPerGeneration && genSeries.Length == maxGenerations
      && write != read && stepSeries != genSeries
    }

    /** The snapshot exchange: a generation change always comes with a step
        change; an unpopulated buffer holds no records; and while both
        buffers are allocated, a pending change needs a populated write side,
        the read side is populated only from a populated write side, and with
        no change pending the read side is exactly the write side. */
    ghost predicate Exchange()
      reads this`flags, write, read
    {
      && (flags.generationChanged ==> flags.stepChanged)
      && (!flags.writeablePopulated ==> Blanked(write))
      && (!flags.readablePopulated ==> Blanked(read))
      && (flags.readHeld && flags.writeHeld ==>
            && (!flags.stepChanged ==> read.Length == write.Length && forall i :: 0 <= i < read.Length ==> read[i] == write[i])
            && (flags.stepChanged ==> flags.writeablePopulated)
            && (flags.readablePopulated ==> flags.writeablePopulated))
    }

    /** The survival figures stay percentages and the series ratios. */
    ghost predicate Figures()
      reads this`progress, stepSeries, genSeries
    {
      && 0.0 <= progress.survivalRate <= 100.0
      && (progress.previousSurvivalRate == -1.0 || 0.0 <= progress.previousSurvivalRate <= 100.0)
      && (forall i :: 0 <= i < stepSeries.Length ==> 0.0 <= stepSeries[i] <= 1.0)
      && (forall i :: 0 <= i < genSeries.Length ==> 0.0 <= genSeries[i] <= 1.0)
    }

    /** The signals of control state `c`: `Ready` first, the session
        protocol, and both buffers allocated until `Quit` is sent. */
    ghost predicate Session(c: ControlState)
      reads this`flags
    {
      && c.signals != [] && c.signals[0] == Ready
      && SessionProtocol(c)
      && (Quit !in c.signals ==> flags.readHeld && flags.writeHeld)
    }

    /** The invariant, with control state `c` in place of the field; it does
        not read the field, so it survives a store to `control`. */
    ghost predicate ValidWith(c: ControlState)
      reads this`flags, this`progress, write, read, stepSeries, genSeries
    {
      Shape() && Exchange() && Figures() && Session(c)
    }

    ghost predicate Valid()
      reads this, write, read, stepSeries, genSeries
    {
      ValidWith(control)
    }

    /** The session state held in the fields. */
    function State(): SessionState
      reads this, write, read, stepSeries, genSeries
    {
      SessionState(control, flags, progress, Stored())
    }

    /** The contents of the buffers and the series. */
    function Stored(): Contents
      reads this, write, read, stepSeries, genSeries
    {
      Contents(write[..], read[..], stepSeries[..], genSeries[..])
    }

    /** Session start: allocate and clear both buffers and both series,
        clear every flag, tell the engine the visualiser is ready and, as the
        visualiser starts paused, send `Pause`. */
    constructor (population: nat, stepsPerGeneration: nat, maxGenerations: nat)
      requires 0 < population
      ensures Valid()
      ensures fresh(write) && fresh(read) && fresh(stepSeries) && fresh(genSeries)
      ensures this.population == population
      ensures this.stepsPerGeneration == stepsPerGeneration
      ensures this.maxGenerations == maxGenerations
      ensures Blanked(write) && Blanked(read)
      ensures flags == ExchangeFlags(false, false, false, false, true, true)
      ensures progress == Progress(0, 0, 100.0, -1.0)
      ensures forall i :: 0 <= i < stepsPerGeneration ==> stepSeries[i] == 0.0
      ensures forall i :: 0 <= i < maxGenerations ==> genSeries[i] == 0.0
      ensures obstacles == []
      ensures control == ControlState(false, false, true, true, [Ready, Pause])
      ensures Stored() == StartContents(population, stepsPerGeneration, maxGenerations)
    {
      this.population := population;
      this.stepsPerGeneration := stepsPerGeneration;
      this.maxGenerations := maxGenerations;
      var w := NewBuffer(population);
      var r := NewBuffer(population);
      var ss := NewSeries(stepsPerGeneration);
      var gs := NewSeries(maxGenerations);
      write, read := w, r;
      flags := ExchangeFlags(false, false, false, false, true, true);
      progress := Progress(0, 0, 100.0, -1.0);
      stepSeries, genSeries := ss, gs;
      obstacles := [];
      var c := ControlState(false, false, true, true, [Ready]);
      if c.paused {
        c := c.(signals := c.signals + [Pause]);
      }
      control := c;
      new;
      assert PauseSignals(control.signals) == [Pause] by {
        PauseSignalsOne(Ready);
        PauseSignalsAppend([Ready], [Pause]);
        PauseSignalsOne(Pause);
      }
    }

    /** Engine-side: publish a whole generation. Unless interrupted, the
        write buffer's records are released (when it holds any) and replaced
        by copies of `orgs`, both change flags and the populated flag are
        set, the generation number is recorded and the step reset; the
        previous survival figure takes the current one from the second
        generation on, and the current one goes back to all alive. With
        pacing on, `FramePause` follows. */
    method PublishGeneration(orgs: seq<Organism>, g: nat)
      requires Valid()
      requires |orgs| == population
      modifies this`flags, this`progress, this`control, write
      ensures Valid()
      ensures old(control.interrupted) ==> unchanged(this, write)
      ensures !old(control.interrupted) ==>
        && write[..] == orgs
        && flags == old(flags).(stepChanged := true, generationChanged := true, writeablePopulated := true)
        && progress == Progress(g, 0, 100.0,
             if g > 0 then old(progress.survivalRate) else old(progress.previousSurvivalRate))
        && control == old(control).(signals := old(control.signals) + PublishSignals(old(control)))
      ensures obstacles == old(obstacles)
    {
      if control.interrupted {
        return;
      }

      ReplaceRecords(write, orgs, flags.writeablePopulated);

      var f := flags.(stepChanged := true, generationChanged := true, writeablePopulated := true);
      var p := Progress(g, 0, 100.0,
        if g > 0 then progress.survivalRate else progress.previousSurvivalRate);

      var pacing := PublishSignals(control);
      assert PauseProtocol(control.(signals := control.signals + pacing)) by {
        OtherSignalsKeepProtocol(control, pacing);
      }
      flags, progress, control := f, p, control.(signals := control.signals + pacing);
    }

    /** Engine-side: publish one step. Unless interrupted, and only once a
        generation has been published, the live part of each write-side
        record is overwritten (identities stay), the step flag is set (the
        generation flag is left as it is), the step is recorded, and the
        survival figure is recomputed and stored at `s` in the per-step
        series and at the current generation in the per-generation series.
        With pacing on, `FramePause` follows even when nothing was copied. */
    method PublishStep(orgs: seq<Organism>, s: nat)
      requires Valid()
      requires |orgs| == population
      requires !control.interrupted && flags.writeablePopulated ==>
        s < stepsPerGeneration && progress.generation < maxGenerations
      modifies this`flags, this`progress, this`control, write, stepSeries, genSeries
      ensures Valid()
      ensures old(control.interrupted) ==> unchanged(this, write, stepSeries, genSeries)
      ensures !old(control.interrupted) ==>
        control == old(control).(signals := old(control.signals) + PublishSignals(old(control)))
      ensures !old(control.interrupted) && !old(flags.writeablePopulated) ==>
        && unchanged(write, stepSeries, genSeries)
        && flags == old(flags) && progress == old(progress)
      ensures !old(control.interrupted) && old(flags.writeablePopulated) ==>
        && (forall i :: 0 <= i < population ==>
              write[i].identity == old(write[i].identity) && write[i].state == orgs[i].state)
        && flags == old(flags).(stepChanged := true)
        && progress == old(progress).(step := s, survivalRate := Percent(AliveCount(orgs), population))
        && stepSeries[..] == old(stepSeries[..])[s := Ratio(AliveCount(orgs), population)]
        && genSeries[..] == old(genSeries[..])[old(progress.generation) := Ratio(AliveCount(orgs), population)]
      ensures obstacles == old(obstacles)
    {
      if control.interrupted {
        return;
      }

      var f, p := flags, progress;
      if f.writeablePopulated {
        var rate := RecordStep(orgs, s);
        f := f.(stepChanged := true);
        p := p.(step := s, survivalRate := rate);
      }

      var pacing := PublishSignals(control);
      assert PauseProtocol(control.(signals := control.signals + pacing)) by {
        OtherSignalsKeepProtocol(control, pacing);
      }
      flags, progress, control := f, p, control.(signals := control.signals + pacing);
      assert Exchange() && Figures();
    }

    /** The write side of a step publish: the live part of each record is
        overwritten from `orgs`, and the survival figure of the result is
        stored as a ratio in both series. */
    method RecordStep(orgs: seq<Organism>, s: nat) returns (rate: real)
      requires Shape() && Figures()
      requires |orgs| == population
      requires s < stepsPerGeneration && progress.generation < maxGenerations
      modifies write, stepSeries, genSeries
      ensures Figures()
      ensures forall i :: 0 <= i < population ==>
        write[i].identity == old(write[i].identity) && write[i].state == orgs[i].state
      ensures rate == Percent(AliveCount(orgs), population)
      ensures stepSeries[..] == old(stepSeries[..])[s := Ratio(AliveCount(orgs), population)]
      ensures genSeries[..] == old(genSeries[..])[progress.generation := Ratio(AliveCount(orgs), population)]
    {
      CopyLiveStates(write, orgs);
      assert AliveCount(write[..population]) == AliveCount(orgs) by {
        assert write[..population] == write[..];
        AliveCountLiveOnly(write[..], orgs);
      }
      rate := CalculateSurvivalRate(write, population);

      var ratio := rate / 100.0;
      StoreSurvival(ratio, s);
    }

    /** Stores a step's survival ratio at step `s` of the per-step series
        and at the current generation of the per-generation series. */
    method StoreSurvival(ratio: real, s: nat)
      requires Shape() && Figures()
      requires 0.0 <= ratio <= 1.0 && s < stepsPerGeneration && progress.generation < maxGenerations
      modifies stepSeries, genSeries
      ensures Figures()
      ensures stepSeries[..] == old(stepSeries[..])[s := ratio]
      ensures genSeries[..] == old(genSeries[..])[progress.generation := ratio]
    {
      genSeries[progress.generation] := ratio;
      stepSeries[s] := ratio;
    }

    /** Render-side refresh: unless interrupted, and only when a change is
        pending, each read-side record is released and replaced by a copy of
        the matching write-side record, both change flags are cleared
        together, and the read side is marked populated. With no change
        pending nothing is copied. */
    method Refresh() returns (refreshed: bool)
      requires Valid()
      modifies this`flags, read
      ensures Valid()
      ensures refreshed <==> !old(control.interrupted) && old(flags.stepChanged || flags.generationChanged)
      ensures refreshed ==>
        && read[..] == write[..]
        && flags == old(flags).(stepChanged := false, generationChanged := false, readablePopulated := true)
      ensures !refreshed ==> unchanged(this, read)
      ensures control == old(control) && progress == old(progress) && obstacles == old(obstacles)
    {
      if control.interrupted {
        return false;
      }
      if !(flags.generationChanged || flags.stepChanged) {
        return false;
      }

      ReplaceRecords(read, write[..], true);
      flags := flags.(generationChanged := false, stepChanged := false, readablePopulated := true);
      refreshed := true;
    }

    /** One input event (see `ControlStep`). */
    method HandleEvent(e: Event)
      requires Valid() && Quit !in control.signals
      modifies this`control
      ensures Valid()
      ensures control == ControlStep(old(control), e)
    {
      ControlStepKeepsProtocol(control, e);
      var c := control;
      match e {
        case WindowEvent(w) =>
          if CloseRequestedAsWritten(w) {
            c := c.(interrupted := true);
          }
        case KeyDown(k) =>
          match k {
            case Escape =>
              c := c.(interrupted := true);
            case Space =>
              if !c.disconnected {
                if c.paused {
                  c := c.(signals := c.signals + [Continue]);
                } else {
                  c := c.(signals := c.signals + [Pause]);
                }
                c := c.(paused := !c.paused);
              }
            case KeyD =>
              if !c.disconnected && !c.paused {
                c := c.(withDelay := !c.withDelay);
              }
            case OtherKey(_) =>
          }
        case OtherEvent =>
      }
      control := c;
    }

    /** All events polled in one loop iteration, in order. */
    method HandleEvents(events: seq<Event>)
      requires Valid() && Quit !in control.signals
      modifies this`control
      ensures Valid() && Quit !in control.signals
      ensures control == HandleAll(old(control), events)
    {
      var i := 0;
      while i < |events|
        invariant 0 <= i <= |events|
        invariant Valid() && Quit !in control.signals
        invariant control == HandleAll(old(control), events[..i])
      {
        assert events[..i + 1][..i] == events[..i];
        ControlStepKeepsProtocol(control, events[i]);
        HandleEvent(events[i]);
        i := i + 1;
      }
      assert events[..i] == events;
    }

    /** Engine-side: the engine has gone away. */
    method SendDisconnected()
      requires Valid()
      modifies this`control
      ensures Valid()
      ensures control == old(control).(disconnected := true)
    {
      control := control.(disconnected := true);
    }

    /** Engine-side: the engine asks the session to end. */
    method SendQuit()
      requires Valid()
      modifies this`control
      ensures Valid()
      ensures control == old(control).(interrupted := true)
    {
      control := control.(interrupted := true);
    }

    /** Replaces the obstacle list passed through to drawing. */
    method SetObstacles(rects: seq<Rect>)
      modifies this`obstacles
      ensures obstacles == rects
    {
      obstacles := rects;
    }

    /** One iteration of the render loop: handle the polled events, refresh
        the read buffer unless interrupted, and with pacing on and not paused
        release the engine's next step. */
    method RunFrame(events: seq<Event>) returns (refreshed: bool)
      requires Valid() && !control.interrupted
      modifies this`flags, this`control, read
      ensures Valid()
      ensures var c := HandleAll(old(control), events);
        control == c.(signals := c.signals + PacingSignals(c))
      ensures refreshed <==> !control.interrupted && old(flags.stepChanged || flags.generationChanged)
      ensures refreshed ==>
        && read[..] == write[..]
        && flags == old(flags).(stepChanged := false, generationChanged := false, readablePopulated := true)
      ensures !refreshed ==> read[..] == old(read[..]) && flags == old(flags)
      ensures progress == old(progress) && obstacles == old(obstacles)
    {
      HandleEvents(events);
      refreshed := Refresh();
      var pacing := PacingSignals(control);
      assert PauseProtocol(control.(signals := control.signals + pacing)) by {
        OtherSignalsKeepProtocol(control, pacing);
      }
      control := control.(signals := control.signals + pacing);
    }

    /** One action of a session that is still running: a render-loop
        iteration or one engine call. Its effect on the session state, the
        buffers and the series included, is `AfterAction`; it interrupts the session exactly when the action is an
        interrupting one, and no action sends `Quit`. A frame leaves the write
        side and the series alone and copies the write side into the read side
        exactly when it refreshes; a generation publish fills the write buffer;
        a step publish, once a generation is there, takes the live part of each
        record and stores the survival ratio in both series; every other action
        leaves the buffers and the series alone. */
    method Perform(a: Action)
      requires Valid() && !control.interrupted
      requires ActionFits(a, population, stepsPerGeneration, maxGenerations)
      requires flags.writeablePopulated ==> progress.generation < maxGenerations
      modifies this`flags, this`progress, this`control, write, read, stepSeries, genSeries
      ensures Valid() && Quit !in control.signals
      ensures State() == AfterAction(old(State()), population, a)
      ensures control.interrupted <==> Interrupting(a)
      ensures flags.writeablePopulated ==> progress.generation < maxGenerations
      ensures obstacles == old(obstacles)
      ensures a.Frame? ==> unchanged(write, stepSeries, genSeries)
      ensures a.Frame? && !control.interrupted && old(flags.stepChanged || flags.generationChanged) ==>
        read[..] == write[..]
      ensures a.Frame? && !(!control.interrupted && old(flags.stepChanged || flags.generationChanged)) ==>
        read[..] == old(read[..])
      ensures a.EngineGeneration? ==> write[..] == a.orgs && unchanged(read, stepSeries, genSeries)
      ensures a.EngineStep? && old(flags.writeablePopulated) ==>
        && unchanged(read)
        && (forall i :: 0 <= i < population ==>
              write[i].identity == old(write[i].identity) && write[i].state == a.orgs[i].state)
        && stepSeries[..] == old(stepSeries[..])[a.s := Ratio(AliveCount(a.orgs), population)]
        && genSeries[..] == old(genSeries[..])[old(progress.generation) := Ratio(AliveCount(a.orgs), population)]
      ensures (a.EngineStep? && !old(flags.writeablePopulated)) || a.EngineDisconnected? || a.EngineQuit? ==>
        unchanged(write, read, stepSeries, genSeries)
    {
      ActionControlInterrupted(control, a);
      match a {
        case Frame(events) =>
          var _ := RunFrame(events);
        case EngineGeneration(orgs, g) =>
          PublishGeneration(orgs, g);
        case EngineStep(orgs, s) =>
          PublishStep(orgs, s);
        case EngineDisconnected =>
          SendDisconnected();
        case EngineQuit =>
          SendQuit();
      }
    }

    /** Action `n` of the schedule, run from the state that the actions
        before it left: the session state is then that of the first `n + 1`
        actions. */
    method PerformNext(ghost s0: SessionState, schedule: seq<Action>, n: nat)
      requires Valid() && !control.interrupted && n < |schedule| && |s0.contents.write| == population
      requires forall i :: 0 <= i < |schedule| ==> WholePopulation(schedule[i], population)
      requires InSeries(schedule[n], stepsPerGeneration, maxGenerations)
      requires flags.writeablePopulated ==> progress.generation < maxGenerations
      requires State() == AfterActions(s0, population, schedule, n)
      modifies this`flags, this`progress, this`control, write, read, stepSeries, genSeries
      ensures Valid()
      ensures State() == AfterActions(s0, population, schedule, n + 1)
      ensures flags.writeablePopulated ==> progress.generation < maxGenerations
    {
      AfterActionsStep(s0, population, schedule, n + 1);
      Perform(schedule[n]);
    }

    /** The loop of `runUserInterface`: run the scheduled actions in order
        while the session is not interrupted. `performed` counts the actions
        run: the session state, the buffers and the series are theirs in
        order, and the loop stopped at the first action that interrupted the
        session, or ran them all. */
    method RenderLoop(schedule: seq<Action>) returns (performed: nat)
      requires Valid() && Quit !in control.signals
      requires forall i :: 0 <= i < |schedule| ==> WholePopulation(schedule[i], population)
      requires forall i :: 0 <= i < |schedule| ==> InSeries(schedule[i], stepsPerGeneration, maxGenerations)
      requires flags.writeablePopulated ==> progress.generation < maxGenerations
      modifies this`flags, this`progress, this`control, write, read, stepSeries, genSeries
      ensures Valid()
      ensures performed <= |schedule|
      ensures State() == AfterActions(old(State()), population, schedule, performed)
      ensures obstacles == old(obstacles)
      ensures !control.interrupted ==> performed == |schedule|
      ensures 0 < performed ==> !ControlAfter(old(control), schedule, performed - 1).interrupted
    {
      performed := 0;
      while performed < |schedule| && !control.interrupted
        invariant 0 <= performed <= |schedule|
        invariant Valid()
        invariant State() == AfterActions(old(State()), population, schedule, performed)
        invariant 0 < performed ==> !ControlAfter(old(control), schedule, performed - 1).interrupted
        invariant flags.writeablePopulated ==> progress.generation < maxGenerations
      {
        PerformNext(old(State()), schedule, performed);
        performed := performed + 1;
      }
    }

    /** The signals of session end: `Continue` if paused, then `Quit`. */
    method SendShutdownSignals()
      requires Valid() && control.interrupted && Quit !in control.signals
      modifies this`control
      ensures control == old(control).(signals := old(control.signals) + ShutdownSignals(old(control.paused)))
      ensures Ended(control)
      ensures Valid()
    {
      var next := control.(signals := control.signals + ShutdownSignals(control.paused));
      assert Ended(next) && ValidWith(next) by {
        ShutdownEnds(control);
      }
      control := next;
    }

    /** Session end, once interrupted: `Continue` if paused, then `Quit`;
        each buffer's records are released only when it holds some, its
        populated flag is cleared, and both buffers are freed. */
    method Shutdown()
      requires Valid() && control.interrupted && Quit !in control.signals
      modifies this`control, this`flags, read, write
      ensures Valid()
      ensures Ended(control)
      ensures control == old(control).(signals := old(control.signals) + ShutdownSignals(old(control.paused)))
      ensures flags == old(flags).(writeablePopulated := false, readablePopulated := false,
                                   writeHeld := false, readHeld := false)
      ensures Blanked(read) && Blanked(write)
      ensures progress == old(progress) && obstacles == old(obstacles)
      ensures !old(flags.readablePopulated) ==> unchanged(read)
      ensures !old(flags.writeablePopulated) ==> unchanged(write)
    {
      SendShutdownSignals();
      ReleaseBuffers();
    }

    /** Session end as the source writes it: a buffer is freed only inside
        the branch that releases its records, so a buffer that never held
        records stays allocated after `Quit`. */
    method ShutdownAsWritten()
      requires Valid() && control.interrupted && Quit !in control.signals
      modifies this`control, this`flags, read, write
      ensures Valid()
      ensures control == old(control).(signals := old(control.signals) + ShutdownSignals(old(control.paused)))
      ensures Ended(control)
      ensures flags == old(flags).(writeablePopulated := false, readablePopulated := false,
                                   writeHeld := old(flags.writeHeld && !flags.writeablePopulated),
                                   readHeld := old(flags.readHeld && !flags.readablePopulated))
      ensures Blanked(read) && Blanked(write)
      ensures progress == old(progress) && obstacles == old(obstacles)
    {
      SendShutdownSignals();
      ReleaseBuffersAsWritten();
    }

    /** The end of `runUserInterface` once the render loop returns: an
        interrupted session shuts down as the source does, any other is left
        as it is. Neither the progress, the series nor the obstacles change. */
    method Finish() returns (ended: bool)
      requires Valid() && Quit !in control.signals
      modifies this`control, this`flags, read, write
      ensures Valid()
      ensures ended == old(control.interrupted)
      ensures progress == old(progress) && obstacles == old(obstacles)
      ensures stepSeries[..] == old(stepSeries[..]) && genSeries[..] == old(genSeries[..])
      ensures !ended ==> State() == old(State())
      ensures ended ==>
        && control == old(control).(signals := old(control.signals) + ShutdownSignals(old(control.paused)))
        && Ended(control)
        && flags == old(flags).(writeablePopulated := false, readablePopulated := false,
                                writeHeld := old(flags.writeHeld && !flags.writeablePopulated),
                                readHeld := old(flags.readHeld && !flags.readablePopulated))
        && Blanked(read) && Blanked(write)
    {
      ended := control.interrupted;
      if ended {
        ShutdownAsWritten();
      }
    }

    /** Once `Quit` is sent: each buffer's records are released only when it
        holds some, its populated flag is cleared, and both buffers are
        freed. */
    method ReleaseBuffers()
      requires Valid() && Quit in control.signals
      modifies this`flags, read, write
      ensures Valid()
      ensures flags == old(flags).(writeablePopulated := false, readablePopulated := false,
                                   writeHeld := false, readHeld := false)
      ensures Blanked(read) && Blanked(write)
      ensures !old(flags.readablePopulated) ==> unchanged(read)
      ensures !old(flags.writeablePopulated) ==> unchanged(write)
    {
      var f := flags;
      if f.readablePopulated {
        ReleaseRecords(read);
      }
      if f.writeablePopulated {
        ReleaseRecords(write);
      }
      flags := f.(readablePopulated := false, readHeld := false,
                  writeablePopulated := false, writeHeld := false);
    }

    /** Once `Quit` is sent, as the source writes it: a buffer is freed only
        inside the branch that releases its records. */
    method ReleaseBuffersAsWritten()
      requires Valid() && Quit in control.signals
      modifies this`flags, read, write
      ensures Valid()
      ensures flags == old(flags).(writeablePopulated := false, readablePopulated := false,
                                   writeHeld := old(flags.writeHeld && !flags.writeablePopulated),
                                   readHeld := old(flags.readHeld && !flags.readablePopulated))
      ensures Blanked(read) && Blanked(write)
    {
      var f := flags;
      if f.readablePopulated {
        ReleaseRecords(read);
        f := f.(readablePopulated := false, readHeld := false);
      }

      if f.writeablePopulated {
        ReleaseRecords(write);
        f := f.(writeablePopulated := false, writeHeld := false);
      }
      flags := f;
    }
  }

  /** A whole session as `runUserInterface` drives it: set up (sending
      `Ready`, then `Pause`), then run the schedule of render-loop frames and
      engine calls while not interrupted, and once interrupted shut down as
      the source does. `performed` counts the actions run, and the session
      state is that of those actions from the start state, followed by the
      shutdown once ended. The session ends exactly when some action of the
      schedule interrupts it (an Escape press in a frame, or the engine's
      quit). At the end of a session both buffers are empty, but the write
      buffer is still allocated exactly when no generation was ever
      published, and then so is the read buffer. */
  method RunUserInterface(population: nat, stepsPerGeneration: nat, maxGenerations: nat, schedule: seq<Action>)
    returns (v: Visualiser, ended: bool, performed: nat)
    requires 0 < population
    requires forall i :: 0 <= i < |schedule| ==> WholePopulation(schedule[i], population)
    requires forall i :: 0 <= i < |schedule| ==> InSeries(schedule[i], stepsPerGeneration, maxGenerations)
    ensures v.Valid()
    ensures [Ready, Pause] <= v.control.signals
    ensures performed <= |schedule|
    ensures ended <==> Quit in v.control.signals
    ensures ended <==> exists j :: 0 <= j < |schedule| && Interrupting(schedule[j])
    ensures EngineQuit in schedule ==> ended
    ensures v.obstacles == []
    ensures (exists j :: 0 <= j < |schedule| && schedule[j].Frame? && KeyDown(Escape) in schedule[j].events) ==> ended
    ensures var s := AfterActions(SessionStart(population, stepsPerGeneration, maxGenerations), population, schedule, performed);
      && v.progress == s.progress
      && v.stepSeries[..] == s.contents.stepSeries && v.genSeries[..] == s.contents.genSeries
      && (!ended ==> v.State() == s)
      && (ended ==>
            && v.control == s.control.(signals := s.control.signals + ShutdownSignals(s.control.paused))
            && v.flags == s.flags.(writeablePopulated := false, readablePopulated := false,
                                   writeHeld := s.flags.writeHeld && !s.flags.writeablePopulated,
                                   readHeld := s.flags.readHeld && !s.flags.readablePopulated))
    ensures !ended ==>
      && performed == |schedule|
      && !v.control.interrupted && PauseProtocol(v.control)
      && (v.flags.writeablePopulated <==> exists j :: 0 <= j < performed && schedule[j].EngineGeneration?)
    ensures ended ==>
      && 0 < performed && Interrupting(schedule[performed - 1])
      && Ended(v.control)
      && !v.flags.readablePopulated && !v.flags.writeablePopulated
      && Blanked(v.read) && Blanked(v.write)
      && (v.flags.writeHeld <==> forall j :: 0 <= j < performed ==> !schedule[j].EngineGeneration?)
      && (v.flags.writeHeld ==> v.flags.readHeld)
  {
    v := new Visualiser(population, stepsPerGeneration, maxGenerations);
    performed := v.RenderLoop(schedule);
    SessionOutcome(SessionStart(population, stepsPerGeneration, maxGenerations), schedule, performed);
    ended := v.Finish();
  }

  /** What a run that stops at the first interrupting action leaves behind,
      whether or not it was interrupted: signals only appended to the startup
      ones and no `Quit` yet; interrupted exactly when some action of the
      whole schedule interrupts, and then by the last action run; the write
      side populated exactly when a generation was published. */
  lemma SessionOutcome(start: SessionState, schedule: seq<Action>, performed: nat)
    requires start.control == StartControl && start.flags == StartFlags
    requires performed <= |schedule|
    requires !ControlAfter(start.control, schedule, performed).interrupted ==> performed == |schedule|
    requires 0 < performed ==> !ControlAfter(start.control, schedule, performed - 1).interrupted
    ensures var c := ControlAfter(start.control, schedule, performed);
      && Quit !in c.signals && [Ready, Pause] <= c.signals
      && (c.interrupted <==> exists j :: 0 <= j < |schedule| && Interrupting(schedule[j]))
      && (c.interrupted ==> 0 < performed && Interrupting(schedule[performed - 1]))
      && (EngineQuit in schedule ==> c.interrupted)
      && ((exists j :: 0 <= j < |schedule| && schedule[j].Frame? && KeyDown(Escape) in schedule[j].events) ==> c.interrupted)
    ensures FlagsAfter(start, schedule, performed).writeablePopulated <==>
      exists j :: 0 <= j < performed && schedule[j].EngineGeneration?
  {
    ControlAfterAppends(start.control, schedule, performed);
    FlagsAfterPopulated(start, schedule, performed);
    RunStopsAtInterruption(start.control, schedule, performed);
    forall j | 0 <= j < |schedule| && schedule[j].Frame? && KeyDown(Escape) in schedule[j].events
      ensures Interrupting(schedule[j])
    {
      EscapeFrameInterrupts(schedule[j].events);
    }
  }

  /** A frame whose polled events hold an Escape press interrupts the
      session. */
  lemma EscapeFrameInterrupts(events: seq<Event>)
    requires KeyDown(Escape) in events
    ensures Interrupting(Frame(events))
  {
    var i :| 0 <= i < |events| && events[i] == KeyDown(Escape);
    assert Interrupts(events[i]);
  }

  /** A worked session with four organisms, two steps per generation and
      two generations: a generation publish shows all alive; a step in which
      one of the four has died shows 75 percent and stores 0.75 in both
      series; the next generation carries 75 percent over as the previous
      figure and shows all alive again. */
  method SurvivalScenario() returns (v: Visualiser)
    ensures v.Valid()
    ensures v.progress == Progress(1, 0, 100.0, 75.0)
    ensures v.stepSeries[..] == [0.0, 0.75] && v.genSeries[..] == [0.75, 0.0]
  {
    v := new Visualiser(4, 2, 2);
    var alive := Organism(Identity([7]), LiveState(Pos(1, 1), true));
    var dead := Organism(Identity([7]), LiveState(Pos(1, 1), false));
    v.PublishGeneration([alive, alive, alive, alive], 0);
    var oneDied := [alive, dead, alive, alive];
    assert AliveCount(oneDied) == 3 by {
      OneOfFourDied(alive, dead);
    }
    v.PublishStep(oneDied, 1);
    v.PublishGeneration([alive, alive, alive, alive], 1);
  }

  /** Three of the four organisms of the scenario's step are alive. */
  lemma OneOfFourDied(alive: Organism, dead: Organism)
    requires alive.state.alive && !dead.state.alive
    ensures AliveCount([alive, dead, alive, alive]) == 3
  {
    AliveCountSnoc([alive, dead, alive], alive);
    AliveCountSnoc([alive, dead], alive);
    AliveCountSnoc([alive], dead);
    AliveCountSnoc([], alive);
    assert [alive, dead, alive] + [alive] == [alive, dead, alive, alive];
    assert [alive, dead] + [alive] == [alive, dead, alive];
    assert [alive] + [dead] == [alive, dead];
    assert [] + [alive] == [alive];
  }

  /** As written, a session the engine ends before publishing anything
      sends `Quit` and ends with both buffers still allocated. */
  method UnpublishedSessionLeaks() returns (v: Visualiser)
    ensures Quit in v.control.signals
    ensures v.flags.readHeld && v.flags.writeHeld
  {
    var ended, performed;
    v, ended, performed := RunUserInterface(1, 1, 1, [EngineQuit]);
  }

  /** Releases every record of a buffer; a released slot owns nothing. */
  method ReleaseRecords(buf: array<Organism>)
    modifies buf
    ensures Blanked(buf)
  {
    var i := 0;
    while i < buf.Length
      invariant 0 <= i <= buf.Length
      invariant forall k :: 0 <= k < i ==> buf[k] == Blank
    {
      buf[i] := Blank;
      i := i + 1;
    }
  }

  /** Replaces every record of `dst` by a copy of the matching record of
      `src`. */
  method CopyRecords(dst: array<Organism>, src: seq<Organism>)
    requires dst.Length == |src|
    modifies dst
    ensures dst[..] == src
  {
    var i := 0;
    while i < dst.Length
      invariant 0 <= i <= dst.Length
      invariant forall k :: 0 <= k < i ==> dst[k] == src[k]
    {
      dst[i] := src[i];
      i := i + 1;
    }
  }

  /** Releases the records of `dst` when `release` says it holds some, then
      fills it with copies of `src`. */
  method ReplaceRecords(dst: array<Organism>, src: seq<Organism>, release: bool)
    requires dst.Length == |src|
    modifies dst
    ensures dst[..] == src
  {
    if release {
      ReleaseRecords(dst);
    }
    CopyRecords(dst, src);
  }

  /** Overwrites the live part of every record of `dst` with that of the
      matching record of `src`; identities stay. */
  method CopyLiveStates(dst: array<Organism>, src: seq<Organism>)
    requires dst.Length == |src|
    modifies dst
    ensures forall k :: 0 <= k < dst.Length ==> dst[k] == CopyLiveState(old(dst[k]), src[k])
  {
    var i := 0;
    while i < dst.Length
      invariant 0 <= i <= dst.Length
      invariant forall k :: 0 <= k < i ==> dst[k] == CopyLiveState(old(dst[k]), src[k])
      invariant forall k :: i <= k < dst.Length ==> dst[k] == old(dst[k])
    {
      dst[i] := CopyLiveState(dst[i], src[i]);
      i := i + 1;
    }
  }
}
